=== FILE: README.md ===
# Buck parser session, cell paths and `js_library` flavors, in Dafny

This project models three pieces of Buck's build-file parsing and rule creation, and
proves properties of the model:

- **The per-build parser session** (`PerBuildState`). It keeps a registry of cells
  keyed by root path, wires the parse pipelines from the root cell's parser
  configuration, checks that a build file lies under its cell before delegating, and
  releases its resources in a fixed order on `close`. The registry is a
  `map<Path, Cell>`. It comes with the log of `registerCell` notifications sent to the
  symlink cache. Cell lookup takes the registry's iteration order as a parameter,
  because a `ConcurrentHashMap` promises none. `Cell.getCellIfKnown` is an abstract
  function parameter, `recognise`.
- **Cell path resolution** (`CellPathResolver`). It covers the known-roots set, the
  lookups that fail with an unknown-cell error, and resolving a cell-relative path.
  The lookups a concrete resolver supplies are fields of a `Resolver` datatype. The
  path comparator is an abstract strict total order. Guava's `ImmutableSortedSet` is a
  strictly ordered sequence (`SortedSets`).
- **The `js_library` rule's flavor algebra** (`JsLibrary`). It covers:
  - the source-to-file-flavor bimap;
  - the flavors kept on per-file and release targets;
  - how a library's flavors reach its dependencies;
  - how declared and query dependencies are combined;
  - the four-way rule dispatch.

  The action graph is an abstract `requireRule` function. The `JsFlavors` catalogue is
  a parameter: `RELEASE`, `LIBRARY_FILES`, the transform-profile domain,
  `isFileFlavor` and `fileFlavorForSourcePath`.

Paths are sequences of name segments (`Paths`), so `startsWith` and `resolve` compare
and concatenate segment by segment, as `java.nio.file.Path` does for relative
arguments; the root component is not modelled. Java exceptions
become the `Failure` case of a `Result`.

The pieces fit together as follows:

- The sorted set depends only on its elements (`SortedSets.OrderedUnique`). So the
  unspecified iteration order of the cell-name map cannot change `getKnownRoots`.
- Every registry operation keeps the invariant `PerBuildState.Valid`:
  - each cell is stored under its own root;
  - the symlink cache was told about each root exactly once, for calls made one at a
    time.
- The registry only grows (`PerBuildState.Grows`).
- The targets one `js_library` rule requires are themselves dispatched to the
  expected rule kinds. The release rule's development target becomes a dev-file
  rule. Per-file targets become file rules. The library's `LIBRARY_FILES` target
  becomes the library-files rule.

`close` makes four plain sequential calls (`PerBuildState.java:196-201`), so an
exception from one stops the rest. `PerBuildState.Close` models exactly that.

## Model

| member | source | states |
|---|---|---|
| SortedSets.Insert | src/com/facebook/buck/core/cell/AbstractCellPathResolver.java:33-38 | Adding to an ordered set keeps it strictly ordered; its elements become the old ones plus the new one; an element already present changes nothing |
| SortedSets.OrderedUnique | src/com/facebook/buck/core/cell/AbstractCellPathResolver.java:33-38 | Two strictly ordered sequences with the same elements are equal, so the built set does not depend on the order elements were added |
| SortedSets.ReversedIsStrictTotalOrder | src/com/facebook/buck/core/cell/AbstractCellPathResolver.java:33 | The reversed comparator is again a strict total order |
| CellPathResolver.GetKnownRoots | src/com/facebook/buck/core/cell/AbstractCellPathResolver.java:32-39 | Known roots are exactly the externally named cell paths plus the root cell path, strictly descending under the comparator and so without duplicates; fails with an unknown-cell error exactly when the root cell path is unknown |
| CellPathResolver.GetCellPathOrThrow | src/com/facebook/buck/core/cell/AbstractCellPathResolver.java:42-47 | Returns the looked-up path when there is one; otherwise an unknown-cell error carrying the requested name and the set of externally known names |
| CellPathResolver.GetCellPathOrThrowCanonical | src/com/facebook/buck/core/cell/AbstractCellPathResolver.java:49-52 | The lookup by canonical name is answered by the new-style resolver |
| CellPathResolver.ResolveCellRelativePath | src/com/facebook/buck/core/cell/AbstractCellPathResolver.java:54-58 | The result starts with the cell's path from the new-style resolver, and removing that prefix gives back the relative path |
| CellPathResolver.ResolveCellRelativePathInjective | src/com/facebook/buck/core/cell/AbstractCellPathResolver.java:55-58 | Two relative paths in the same cell resolve to the same absolute path only if they are equal |
| PerBuildState.Register | src/com/facebook/buck/parser/PerBuildState.java:159-165 | A known root leaves the state unchanged and sends no new notification; a new root adds exactly that entry and one symlink-cache notification; nothing shrinks |
| PerBuildState.RegisterKeepsValid | src/com/facebook/buck/parser/PerBuildState.java:159-165 | Registration keeps the registry invariant: every cell stored under its own root, every registered root announced to the symlink cache exactly once |
| PerBuildState.RegisterIdempotent | src/com/facebook/buck/parser/PerBuildState.java:159-165 | Registering a cell twice is the same as registering it once |
| PerBuildState.FindOwner | src/com/facebook/buck/parser/PerBuildState.java:173-179 | The answer is the first cell in iteration order that recognises the target; there is none exactly when no cell recognises it |
| PerBuildState.GetCell | src/com/facebook/buck/parser/PerBuildState.java:167-182 | A hit returns the stored cell, which is rooted at the target's cell path, and changes nothing. A miss returns a cell that some known cell recognises and registers it; the keys grow by at most that root. The lookup fails, naming the target and its cell path, exactly when no known cell recognises the target. The registry invariant is kept |
| PerBuildState.SecondLookupHits | src/com/facebook/buck/parser/PerBuildState.java:184-189 | When recognised cells are rooted at the target's cell path, looking the same target up again is a hit that returns the same cell and state |
| PerBuildState.New | src/com/facebook/buck/parser/PerBuildState.java:59-117 | After construction only the root cell is registered and announced. Speculative parsing is on exactly when parallel parsing is on and speculation is enabled. The direct executor is used exactly when parallel parsing is off. The per-cell parser cap is the configured thread count |
| PerBuildState.GetTargetNode | src/com/facebook/buck/parser/PerBuildState.java:119-132 | The node request goes to the target-node pipeline with the owning cell found by the lookup; it fails exactly when the lookup does |
| PerBuildState.CheckUnderCell | src/com/facebook/buck/parser/PerBuildState.java:136 | A request is passed on exactly when the build file starts with the cell root; otherwise an illegal-state error |
| PerBuildState.UnderCellIsResolvedUnderRoot | src/com/facebook/buck/parser/PerBuildState.java:136 | A build file passes the under-cell check exactly when it is some relative path resolved against the cell root |
| PerBuildState.GetAllTargetNodes | src/com/facebook/buck/parser/PerBuildState.java:134-148 | Both the blocking and the future-returning variant reach the target-node pipeline exactly when the build file starts with the cell root |
| PerBuildState.GetAllRawNodes | src/com/facebook/buck/parser/PerBuildState.java:150-157 | Reaches the raw-node pipeline exactly when the build file starts with the cell root |
| PerBuildState.RegisterInputsUnderSymlinks | src/com/facebook/buck/parser/PerBuildState.java:184-189 | Succeeds exactly when the first cell lookup does. The owning cell is the first lookup's cell. The declaring cell and the final state are what the second lookup, made on the state the first one left, returns. The registry only grows, the invariant is kept, and the check is forwarded for the given file and target |
| PerBuildState.RegisterInputsUnderSymlinksKnownCell | src/com/facebook/buck/parser/PerBuildState.java:184-189 | For a target whose cell is registered, that cell is forwarded as both owning and declaring cell, and the state is unchanged |
| PerBuildState.RegisterInputsUnderSymlinksSameCell | src/com/facebook/buck/parser/PerBuildState.java:184-189 | When recognised cells are rooted at the target's cell path, the owning and declaring cell are the same, and the state is the one the first lookup left |
| PerBuildState.CloseInOrder | src/com/facebook/buck/parser/PerBuildState.java:196-201 | The closed resources are a prefix of the order. If none fails, all are closed. Otherwise closing stops at the first failing resource, which is reported |
| PerBuildState.Close | src/com/facebook/buck/parser/PerBuildState.java:195-201 | With no failure, closes the target pipeline, the raw pipeline, the parser pool and the symlink cache, in that order. Otherwise closing stops at the first failing resource, which is the last one closed and is reported; every resource closed before it succeeded |
| JsLibrary.MapSourcesToFlavors | src/com/facebook/buck/features/js/JsLibraryDescription.java:377-391 | Succeeds exactly when no two sources share a file flavor; then it maps each source, and nothing else, to the flavor of its resolved path or of its sub-path |
| JsLibrary.SourceFlavorsBijective | src/com/facebook/buck/features/js/JsLibraryDescription.java:377-391 | The source-to-flavor map is injective, and its values are file flavors |
| JsLibrary.SplitSource | src/com/facebook/buck/features/js/JsLibraryDescription.java:343-344 | A source splits into the source path it reads and its optional sub-path; putting the parts back together gives the source |
| JsLibrary.SplitSourceSubPathIsFlavorPath | src/com/facebook/buck/features/js/JsLibraryDescription.java:343-344 | The sub-path a paired source splits off is the path its file flavor was computed from |
| JsLibrary.SourceWithFlavor | src/com/facebook/buck/features/js/JsLibraryDescription.java:115-117 | The inverse lookup finds a source exactly when some source maps to the flavor, and the source found maps to it |
| JsLibrary.ExtractSource | src/com/facebook/buck/features/js/JsLibraryDescription.java:115-117 | A source is extracted exactly when some flavor of the target is a value of the source-to-flavor map; it is the source of the first such flavor in the flavor set's iteration order |
| JsLibrary.ExtractSourceFindsFileFlavor | src/com/facebook/buck/features/js/JsLibraryDescription.java:115-131 | Extraction succeeds exactly when the target has a flavor some source is mapped to, the condition the rule dispatch tests |
| JsLibrary.FileBaseTarget | src/com/facebook/buck/features/js/JsLibraryDescription.java:214-225 | Without RELEASE only the transform-profile flavors of the target remain; with RELEASE the target is unchanged |
| JsLibrary.FileBaseTargetIdempotent | src/com/facebook/buck/features/js/JsLibraryDescription.java:219-225 | Computing the file base target twice gives the same target |
| JsLibrary.WithFileFlavorOnly | src/com/facebook/buck/features/js/JsLibraryDescription.java:370-375 | Keeps exactly the target's flavors that are file flavors |
| JsLibrary.WithFileFlavorOnlyIdempotent | src/com/facebook/buck/features/js/JsLibraryDescription.java:370-375 | Filtering twice is the same as filtering once |
| JsLibrary.Dispatch | src/com/facebook/buck/features/js/JsLibraryDescription.java:115-148 | Exactly one rule kind, chosen by priority: a file flavor with RELEASE gives the release file rule; a file flavor without RELEASE gives the dev file rule; no file flavor with LIBRARY_FILES gives the library-files rule; otherwise the library rule |
| JsLibrary.DependencyTarget | src/com/facebook/buck/features/js/JsLibraryDescription.java:296-302 | A dependency keeps its declaration and carries its own flavors plus the library's; a library without flavors passes it through unchanged |
| JsLibrary.VerifyIsJsLibraryRule | src/com/facebook/buck/features/js/JsLibraryDescription.java:304-314 | Returns the rule exactly when it is a js_library rule; otherwise an error naming the library, the dependency and the dependency's rule type |
| JsLibrary.Filter | src/com/facebook/buck/features/js/JsLibraryDescription.java:139-142 | Keeps exactly the query results that are js_library targets, no more of them than there were; keeps everything when every target is accepted |
| JsLibrary.FilterAppend | src/com/facebook/buck/features/js/JsLibraryDescription.java:139-142 | Filtering a concatenation is the concatenation of the filtered parts, so the kept targets stay in their order |
| JsLibrary.FilterSingleton | src/com/facebook/buck/features/js/JsLibraryDescription.java:139-142 | A single target is kept exactly when it is a js_library target |
| JsLibrary.LibraryDependencies | src/com/facebook/buck/features/js/JsLibraryDescription.java:136-144 | The declared deps come first and unfiltered, then the query deps that are js_library targets, in the resolved query's order; an absent deps query adds nothing |
| JsLibrary.FirstNonLibrary | src/com/facebook/buck/features/js/JsLibraryDescription.java:270-276 | Finds the first dependency whose flavored target is not a js_library rule; all dependencies before it are js_library rules |
| JsLibrary.SetLibraryDependencies | src/com/facebook/buck/features/js/JsLibraryDescription.java:270-278 | Succeeds exactly when every flavored dependency is a js_library rule, and then yields one rule per dependency in order. Otherwise it fails with the error of the first dependency that is not |
| JsLibrary.WithDepsQuery | src/com/facebook/buck/features/js/JsLibraryDescription.java:187-193 | The result has the given deps query and otherwise equals the argument; an argument that already has that query is returned unchanged |
| JsLibrary.WithDepsQueryIdempotent | src/com/facebook/buck/features/js/JsLibraryDescription.java:187-193 | Setting the same deps query twice is the same as setting it once |
| JsLibrary.RuleWithType | src/com/facebook/buck/features/js/JsLibraryDescription.java:122-123 | The required rule is returned exactly when it has the expected type; otherwise a wrong-type error naming the target |
| JsLibrary.RequireJsFile | src/com/facebook/buck/features/js/JsLibraryDescription.java:234-239 | A source's per-file target has the file base target's flavors plus exactly that source's file flavor; it succeeds exactly when that target's rule is a js file rule, and otherwise names the target |
| JsLibrary.RequireJsFiles | src/com/facebook/buck/features/js/JsLibraryDescription.java:228-238 | Succeeds exactly when every source's per-file target is a js file rule, and then yields one per-file target per source, in source order; otherwise it fails with a wrong-type error naming the per-file target of the first source whose rule is not a js file rule |
| JsLibrary.FileRulePlan | src/com/facebook/buck/features/js/JsLibraryDescription.java:125-130 | With RELEASE, the plan is produced exactly when the file-flavor-only target is a js file rule; without it, the dev file plan reads the source's path and sub-path |
| JsLibrary.LibraryFilesRulePlan | src/com/facebook/buck/features/js/JsLibraryDescription.java:131-134 | Produced exactly when every per-file target is a js file rule; its output target is the target plus LIBRARY_FILES, and it holds the per-file target of each source at that source's position |
| JsLibrary.LibraryRulePlan | src/com/facebook/buck/features/js/JsLibraryDescription.java:145-147 | Produced exactly when every flavored dependency is a js_library rule and the LIBRARY_FILES target is a library-files rule; holds the rule of each flavored dependency at that dependency's position |
| JsLibrary.CreateBuildRule | src/com/facebook/buck/features/js/JsLibraryDescription.java:98-149 | A plan is produced only when the source flavors are distinct, the worker is a worker tool and the dispatched branch's required rules have the expected types. The plan follows the dispatch: the release plan requires the file-flavor-only target; the dev plan reads the extracted source; the library-files plan holds the per-file target of each source, in source order; the library plan holds the target plus LIBRARY_FILES and the rule of each flavored dependency, in dependency order |
| JsLibrary.CreateBuildRuleSucceeds | src/com/facebook/buck/features/js/JsLibraryDescription.java:98-149 | When the sources have distinct flavors, the worker is a worker tool and the dispatched branch's required rules have the expected types, a plan is produced |
| JsLibrary.CreateBuildRuleDuplicateFlavor | src/com/facebook/buck/features/js/JsLibraryDescription.java:106-111 | Sources with colliding file flavors fail the rule with the bimap's duplicate-flavor error, before anything else is consulted |
| JsLibrary.ReleaseDevTargetIsDevFile | src/com/facebook/buck/features/js/JsLibraryDescription.java:317-333 | The development target a release file rule requires is dispatched to the dev file rule |
| JsLibrary.PerFileTargetsAreFileRules | src/com/facebook/buck/features/js/JsLibraryDescription.java:219-239 | Per-file targets dispatch to the release file rule when the library target has RELEASE, and to the dev file rule otherwise |
| JsLibrary.PerFileTargetFlavors | src/com/facebook/buck/features/js/JsLibraryDescription.java:214-236 | Without RELEASE, a per-file target carries only transform-profile flavors of the library target and its own file flavor |
| JsLibrary.LibraryFilesTargetIsLibraryFilesRule | src/com/facebook/buck/features/js/JsLibraryDescription.java:280-289 | The LIBRARY_FILES target that a library rule requires is dispatched to the library-files rule |

## Left out

- The raw-node and target-node parse pipelines, the parser pool and the symlink cache
  are opaque. Only the calls the session makes on them are modelled: delegated
  requests, `registerCell` notifications, forwarded symlink checks and `close`. Their
  own logic is concurrent memoization and process pooling.
- Thread safety of the `ConcurrentHashMap` and `AtomicLong`, executors and futures are
  not modelled. Calls are taken one at a time, so "each root announced exactly once"
  holds only for sequential calls. `register` checks `containsKey` and then calls
  `put`, and the two are not one atomic step. So two concurrent misses on the same
  cell can both notify the symlink cache. `getParseProcessedBytes` only passes the
  counter through and is left out.
- The event bus, the Python interpreter provider, the type coercer, the marshaller and
  the known-rule-types provider are external collaborators and are not modelled.
- The concrete resolver behind `getCellPath`, `getCellPathsByRootCellExternalName`
  and `getNewCellPathResolver` is not part of this model. Those three are the fields
  of `Resolver`.
- Guava's weighted weak-key cache of source-to-flavor maps is a caching policy. The
  model recomputes the map, which gives the same value.
- `changePathPrefix` and the virtual path of `createDevFileRule` are not modelled.
  They depend on path normalisation and project-root relativisation that are not
  part of this model. Their error for a base path that would move the file out of
  the project root is dropped too, so a dev-file plan always succeeds in the model.
- `JsFile.create`, the `JsLibrary` and `JsLibrary.Files` constructors,
  `JsUtil.getExtraJson`, and the sorting of output source paths are foreign calls.
  The rule plans record only the targets those rules are built from.
- `hasFlavors` (via `JsFlavors.validateFlavors`) and
  `findDepsForTargetFromConstructorArgs` (via `QueryUtils`) only call code that is not
  part of this model. `flavorDomains` returns a constant catalogue and is not
  modelled.
- JsLibrary.ExtractSource: `JsFlavors.extractSourcePath` is not part of this model.
  It is modelled as looking up the target's flavors, in the iteration order of the
  flavor set, in the inverse of the source-to-flavor map. The first source found is
  the answer. That iteration order is a parameter.
- JsLibrary.CreateBuildRule: its own contract states that success implies the build
  requirements. The converse is `JsLibrary.CreateBuildRuleSucceeds`, and the error for
  colliding flavors is `JsLibrary.CreateBuildRuleDuplicateFlavor`. For a wrongly typed
  required rule, `JsLibrary.RuleWithType`, `JsLibrary.RequireJsFiles` and
  `JsLibrary.SetLibraryDependencies` state which error is raised.
- The path comparator is any strict total order. `AbsPath.comparator()` itself is not
  part of this model.

=== FILE: cell_path_resolver.dfy ===
/** The shared logic of Buck's cell path resolvers: the set of known cell roots,
    name-to-root lookups that fail with an unknown-cell error, and resolution of a
    path relative to a cell. The lookups a concrete resolver supplies are fields of
    `Resolver`; the path comparator is an abstract strict total order. */
module CellPathResolver {
  import opened Wrappers
  import opened Paths
  import opened SortedSets

  /** A cell's canonical name; the root cell has no legacy name. */
  datatype CanonicalCellName = CanonicalCellName(legacyName: Option<string>)

  /** A path relative to the root of the named cell. */
  datatype CellRelativePath = CellRelativePath(cellName: CanonicalCellName, path: Path)

  /** `UnknownCellException`: the name that was asked for and the names that exist. */
  datatype CellError = UnknownCell(requested: Option<string>, knownNames: set<string>)

  /** The abstract queries of a concrete resolver:
      `cellPaths` answers `getCellPath(Optional<String>)` (the empty name is the root cell),
      `externalNames` is `getCellPathsByRootCellExternalName()`,
      `newCellPath` is `getNewCellPathResolver().getCellPath(CanonicalCellName)`. */
  datatype Resolver = Resolver(
    cellPaths: map<Option<string>, Path>,
    externalNames: map<string, Path>,
    newCellPath: CanonicalCellName -> Path)

  function GetCellPath(r: Resolver, name: Option<string>): Option<Path> {
    if name in r.cellPaths then Some(r.cellPaths[name]) else None
  }

  /** `getCellPathOrThrow(Optional<String>)`: the looked-up path, or an unknown-cell
      error naming the requested cell and every externally named cell. */
  function GetCellPathOrThrow(r: Resolver, name: Option<string>): (p: Result<Path, CellError>)
    ensures p.Success? <==> GetCellPath(r, name).Some?
    ensures p.Success? ==> Some(p.value) == GetCellPath(r, name)
    ensures p.Failure? ==> p.error == UnknownCell(name, r.externalNames.Keys)
  {
    match GetCellPath(r, name)
    case Some(path) => Success(path)
    case None => Failure(UnknownCell(name, r.externalNames.Keys))
  }

  /** `getCellPathOrThrow(CanonicalCellName)`: delegated to the new-style resolver. */
  function GetCellPathOrThrowCanonical(r: Resolver, name: CanonicalCellName): (p: Path)
    ensures p == r.newCellPath(name)
  {
    r.newCellPath(name)
  }

  /** Every externally named cell root plus the root cell's path, strictly descending
      under the path comparator (so without duplicates), and nothing else. Fails
      exactly when the root cell's path is unknown. */
  method GetKnownRoots(r: Resolver, lt: (Path, Path) -> bool) returns (roots: Result<seq<Path>, CellError>)
    requires StrictTotalOrder(lt)
    ensures roots.Success? <==> GetCellPathOrThrow(r, None).Success?
    ensures roots.Failure? ==> roots.error == UnknownCell(None, r.externalNames.Keys)
    ensures roots.Success? ==>
      forall p :: p in roots.value <==> p in r.externalNames.Values || Success(p) == GetCellPathOrThrow(r, None)
    ensures roots.Success? ==>
      forall i, j :: 0 <= i < j < |roots.value| ==> lt(roots.value[j], roots.value[i])
  {
    var rev := Reversed(lt);
    ReversedIsStrictTotalOrder(lt);
    var sorted: seq<Path> := [];
    var remaining := r.externalNames.Values;
    while remaining != {}
      invariant remaining <= r.externalNames.Values
      invariant Ordered(sorted, rev)
      invariant forall p :: p in sorted <==> p in r.externalNames.Values && p !in remaining
      decreases remaining
    {
      var p :| p in remaining;
      sorted := Insert(sorted, p, rev);
      remaining := remaining - {p};
    }
    var root := GetCellPathOrThrow(r, None);
    if root.Failure? {
      return Failure(root.error);
    }
    sorted := Insert(sorted, root.value, rev);
    assert forall i, j :: 0 <= i < j < |sorted| ==> rev(sorted[i], sorted[j]);
    roots := Success(sorted);
  }

  /** `resolveCellRelativePath`: the owning cell's root extended by the relative path. */
  function ResolveCellRelativePath(r: Resolver, crp: CellRelativePath): (p: Path)
    ensures StartsWith(p, GetCellPathOrThrowCanonical(r, crp.cellName))
    ensures p[|GetCellPathOrThrowCanonical(r, crp.cellName)|..] == crp.path
  {
    Resolve(GetCellPathOrThrowCanonical(r, crp.cellName), crp.path)
  }

  /** Two cell-relative paths of the same cell resolve to the same absolute path only
      when they are the same relative path. */
  lemma ResolveCellRelativePathInjective(r: Resolver, a: CellRelativePath, b: CellRelativePath)
    requires a.cellName == b.cellName
    requires ResolveCellRelativePath(r, a) == ResolveCellRelativePath(r, b)
    ensures a == b
  {
  }
}

=== FILE: js_library.dfy ===
/** The flavor algebra of the `js_library` rule: which flavors a library's per-file
    and release targets keep, how a library's flavors reach its dependencies, how
    declared and query dependencies are combined, how sources are mapped to file
    flavors, and which of the four rule kinds a flavored target builds. The action
    graph is an abstract function from target to rule; the `JsFlavors` catalogue
    (which flavors are file flavors, the transform-profile domain, the file flavor of
    a source path) is a parameter. */
module JsLibrary {
  import opened Wrappers
  import opened Paths
  import opened Targets

  /** The `JsFlavors` constants and helpers the rule relies on. */
  datatype JsFlavors = JsFlavors(
    release: Flavor,
    libraryFiles: Flavor,
    transformProfileDomain: set<Flavor>,
    isFileFlavor: Flavor -> bool,
    fileFlavorForSourcePath: Path -> Flavor)

  /** What the catalogue guarantees: `RELEASE` and `LIBRARY_FILES` are distinct and are
      not file flavors, and every source path is given a file flavor. */
  ghost predicate WellFormed(jf: JsFlavors) {
    && jf.release != jf.libraryFiles
    && !jf.isFileFlavor(jf.release)
    && !jf.isFileFlavor(jf.libraryFiles)
    && forall p :: jf.isFileFlavor(jf.fileFlavorForSourcePath(p))
  }

  /** A `SourcePath`: a file in the project or the output of another target. */
  datatype SourcePath = PathSourcePath(path: Path) | BuildTargetSourcePath(target: BuildTarget)

  /** One entry of `srcs`: a source, or a source paired with the sub-path it stands for
      (`Either<SourcePath, Pair<SourcePath, String>>`). */
  datatype Source = Plain(sourcePath: SourcePath) | WithSubPath(sourcePath: SourcePath, subPath: Path)

  datatype RuleType = JsLibraryType | JsLibraryFilesType | JsFileType | WorkerToolType | OtherType(name: string)

  datatype BuildRule = BuildRule(target: BuildTarget, ruleType: RuleType)

  /** `deps_query`: the expression and the targets it resolved to. */
  datatype Query = Query(expression: string, resolved: seq<BuildTarget>)

  datatype JsLibraryArg = JsLibraryArg(
    name: string,
    srcs: seq<Source>,
    deps: seq<BuildTarget>,
    depsQuery: Option<Query>,
    worker: BuildTarget,
    basePath: Option<string>)

  datatype JsError =
    | DuplicateSourceFlavor(flavor: Flavor)
    | WrongRuleType(target: BuildTarget, expected: RuleType)
    | NotAJsLibrary(library: BuildTarget, dependency: BuildTarget, dependencyType: string)

  /** The action graph, as far as the rule consults it: `requireRule(target)` yields a
      rule for the target, and the target graph names each target's rule type. */
  datatype Graph = Graph(requireRule: BuildTarget -> BuildRule, ruleTypeName: BuildTarget -> string)

  /** The four rule kinds `createBuildRule` can build. */
  datatype RuleKind = ReleaseFileRule | DevFileRule | LibraryFilesRule | LibraryRule

  // ---------------------------------------------------------------------------
  // Sources and file flavors

  /** The path a source's file flavor is derived from: the resolved relative path of
      a plain source, the sub-path of a paired one. */
  function FlavorPath(source: Source, relativePath: SourcePath -> Path): Path {
    match source
    case Plain(sp) => relativePath(sp)
    case WithSubPath(_, sub) => sub
  }

  function FlavorOf(source: Source, relativePath: SourcePath -> Path, jf: JsFlavors): Flavor {
    jf.fileFlavorForSourcePath(FlavorPath(source, relativePath))
  }

  /** No two entries of `sources` have the same file flavor. */
  ghost predicate DistinctFlavors(sources: seq<Source>, relativePath: SourcePath -> Path, jf: JsFlavors) {
    forall i, j :: 0 <= i < j < |sources| ==>
      FlavorOf(sources[i], relativePath, jf) != FlavorOf(sources[j], relativePath, jf)
  }

  lemma DistinctFlavorsSnoc(sources: seq<Source>, relativePath: SourcePath -> Path, jf: JsFlavors)
    requires |sources| > 0
    ensures var n := |sources| - 1;
      DistinctFlavors(sources, relativePath, jf) <==>
        && DistinctFlavors(sources[..n], relativePath, jf)
        && forall i :: 0 <= i < n ==> FlavorOf(sources[i], relativePath, jf) != FlavorOf(sources[n], relativePath, jf)
  {
  }

  /** The last source's flavor is already a value of the map built from the others
      exactly when an earlier source has that flavor. */
  lemma LastFlavorCollides(sources: seq<Source>, relativePath: SourcePath -> Path, jf: JsFlavors, m: map<Source, Flavor>)
    requires |sources| > 0
    requires forall s :: s in m <==> s in sources[..|sources| - 1]
    requires forall s :: s in m ==> m[s] == FlavorOf(s, relativePath, jf)
    ensures var n := |sources| - 1;
      FlavorOf(sources[n], relativePath, jf) in m.Values <==>
        exists i :: 0 <= i < n && FlavorOf(sources[i], relativePath, jf) == FlavorOf(sources[n], relativePath, jf)
  {
    var n := |sources| - 1;
    var f := FlavorOf(sources[n], relativePath, jf);
    if f in m.Values {
      var s :| s in m && m[s] == f;
      var i :| 0 <= i < n && sources[..n][i] == s;
      assert sources[i] == s;
    }
    if exists i :: 0 <= i < n && FlavorOf(sources[i], relativePath, jf) == f {
      var i :| 0 <= i < n && FlavorOf(sources[i], relativePath, jf) == f;
      assert sources[..n][i] == sources[i];
      assert m[sources[i]] == f;
    }
  }

  /** `mapSourcesToFlavors`: a bidirectional map from each source to its file flavor.
      The bimap builder rejects two entries with the same flavor (which includes the
      same source twice). */
  function MapSourcesToFlavors(sources: seq<Source>, relativePath: SourcePath -> Path, jf: JsFlavors)
    : (r: Result<map<Source, Flavor>, JsError>)
    ensures r.Success? <==> DistinctFlavors(sources, relativePath, jf)
    ensures r.Success? ==> forall s :: s in r.value <==> s in sources
    ensures r.Success? ==> forall s :: s in r.value ==> r.value[s] == FlavorOf(s, relativePath, jf)
    ensures r.Failure? ==> r.error.DuplicateSourceFlavor?
    decreases |sources|
  {
    if |sources| == 0 then Success(map[])
    else
      var n := |sources| - 1;
      var last := sources[n];
      var f := FlavorOf(last, relativePath, jf);
      var previous := MapSourcesToFlavors(sources[..n], relativePath, jf);
      DistinctFlavorsSnoc(sources, relativePath, jf);
      if previous.Failure? then previous
      else
        LastFlavorCollides(sources, relativePath, jf, previous.value);
        assert sources == sources[..n] + [last];
        if f in previous.value.Values then Failure(DuplicateSourceFlavor(f))
        else Success(previous.value[last := f])
  }

  /** `createDevFileRule`'s split of a source into the source path it reads and the
      optional sub-path (`Pair::getFirst` and `Pair::getSecond` of a paired source).
      The two parts put back together are the source. */
  function SplitSource(source: Source): (r: (SourcePath, Option<Path>))
    ensures r.1.None? ==> source == Plain(r.0)
    ensures r.1.Some? ==> source == WithSubPath(r.0, r.1.value)
  {
    match source
    case Plain(sp) => (sp, None)
    case WithSubPath(sp, sub) => (sp, Some(sub))
  }

  /** The flavor a paired source is mapped to is the file flavor of its sub-path. */
  lemma SplitSourceSubPathIsFlavorPath(source: Source, relativePath: SourcePath -> Path)
    requires SplitSource(source).1.Some?
    ensures FlavorPath(source, relativePath) == SplitSource(source).1.value
  {
  }

  /** A lookup in the inverse of the source-to-flavor map: a source among `sources`
      that the map sends to `f`. */
  function SourceWithFlavor(m: map<Source, Flavor>, sources: seq<Source>, f: Flavor): (r: Option<Source>)
    requires forall i :: 0 <= i < |sources| ==> sources[i] in m
    ensures r.Some? <==> exists i :: 0 <= i < |sources| && m[sources[i]] == f
    ensures r.Some? ==> r.value in sources && m[r.value] == f
    decreases |sources|
  {
    if |sources| == 0 then None
    else if m[sources[0]] == f then Some(sources[0])
    else
      var rest := SourceWithFlavor(m, sources[1..], f);
      assert forall i :: 1 <= i < |sources| ==> sources[i] == sources[1..][i - 1];
      rest
  }

  /** `extractSourcePath`: the target's flavors, taken in the iteration order
      `flavorOrder` of its flavor set, are looked up in the inverse of the
      source-to-flavor map; the source of the first flavor found is the answer. */
  function ExtractSource(m: map<Source, Flavor>, sources: seq<Source>, flavorOrder: seq<Flavor>): (r: Option<Source>)
    requires forall s :: s in m <==> s in sources
    ensures r.Some? <==> exists k :: 0 <= k < |flavorOrder| && flavorOrder[k] in m.Values
    ensures r.Some? ==>
      && r.value in m
      && exists k :: 0 <= k < |flavorOrder| && m[r.value] == flavorOrder[k]
           && forall j :: 0 <= j < k ==> flavorOrder[j] !in m.Values
    decreases |flavorOrder|
  {
    if |flavorOrder| == 0 then None
    else
      var here := SourceWithFlavor(m, sources, flavorOrder[0]);
      assert here.Some? <==> flavorOrder[0] in m.Values by {
        if flavorOrder[0] in m.Values {
          var s :| s in m && m[s] == flavorOrder[0];
          var i :| 0 <= i < |sources| && sources[i] == s;
        }
      }
      if here.Some? then here
      else
        var rest := ExtractSource(m, sources, flavorOrder[1..]);
        assert forall k :: 1 <= k < |flavorOrder| ==> flavorOrder[k] == flavorOrder[1..][k - 1];
        if rest.Some? then
          var k :| 0 <= k < |flavorOrder[1..]| && m[rest.value] == flavorOrder[1..][k]
            && forall j :: 0 <= j < k ==> flavorOrder[1..][j] !in m.Values;
          assert m[rest.value] == flavorOrder[k + 1];
          rest
        else rest
  }

  /** A source is extracted exactly when some flavor of the target is a value of the
      source-to-flavor map. */
  lemma ExtractSourceFindsFileFlavor(m: map<Source, Flavor>, sources: seq<Source>, flavorOrder: seq<Flavor>,
                                     target: BuildTarget)
    requires forall s :: s in m <==> s in sources
    requires forall f :: f in flavorOrder <==> f in target.flavors
    ensures ExtractSource(m, sources, flavorOrder).Some? <==> HasFileFlavor(target, m.Values)
  {
    if HasFileFlavor(target, m.Values) {
      var f :| f in target.flavors && f in m.Values;
      var k :| 0 <= k < |flavorOrder| && flavorOrder[k] == f;
    }
  }

  // ---------------------------------------------------------------------------
  // Flavor filters

  /** The target of the per-file rules of a library: without `RELEASE`, only the
      transform-profile flavors are kept; with `RELEASE`, the target is unchanged. */
  function FileBaseTarget(base: BuildTarget, jf: JsFlavors): (r: BuildTarget)
    ensures r.unflavored == base.unflavored
    ensures r.flavors <= base.flavors
    ensures jf.release in base.flavors ==> r == base
    ensures jf.release !in base.flavors ==>
      forall f :: f in r.flavors <==> f in base.flavors && f in jf.transformProfileDomain
  {
    if jf.release !in base.flavors then base.WithFlavors(base.flavors * jf.transformProfileDomain)
    else base
  }

  /** `withFileFlavorOnly`: the same declaration keeping only its file flavors. */
  function WithFileFlavorOnly(target: BuildTarget, jf: JsFlavors): (r: BuildTarget)
    ensures r.unflavored == target.unflavored
    ensures forall f :: f in r.flavors <==> f in target.flavors && jf.isFileFlavor(f)
  {
    target.WithFlavors(set f | f in target.flavors && jf.isFileFlavor(f))
  }

  lemma WithFileFlavorOnlyIdempotent(target: BuildTarget, jf: JsFlavors)
    ensures WithFileFlavorOnly(WithFileFlavorOnly(target, jf), jf) == WithFileFlavorOnly(target, jf)
  {
  }

  lemma FileBaseTargetIdempotent(base: BuildTarget, jf: JsFlavors)
    ensures FileBaseTarget(FileBaseTarget(base, jf), jf) == FileBaseTarget(base, jf)
  {
  }

  // ---------------------------------------------------------------------------
  // Dispatch

  /** `extractSourcePath(...).isPresent()`: some flavor of the target is the file
      flavor of one of the library's sources. */
  predicate HasFileFlavor(target: BuildTarget, sourceFlavors: set<Flavor>) {
    exists f :: f in target.flavors && f in sourceFlavors
  }

  /** The rule kind `createBuildRule` builds for a target, in priority order. */
  function Dispatch(target: BuildTarget, sourceFlavors: set<Flavor>, jf: JsFlavors): (k: RuleKind)
    ensures k == ReleaseFileRule <==> HasFileFlavor(target, sourceFlavors) && jf.release in target.flavors
    ensures k == DevFileRule <==> HasFileFlavor(target, sourceFlavors) && jf.release !in target.flavors
    ensures k == LibraryFilesRule <==>
      !HasFileFlavor(target, sourceFlavors) && jf.libraryFiles in target.flavors
    ensures k == LibraryRule <==>
      !HasFileFlavor(target, sourceFlavors) && jf.libraryFiles !in target.flavors
  {
    if HasFileFlavor(target, sourceFlavors) then
      if jf.release in target.flavors then ReleaseFileRule else DevFileRule
    else if jf.libraryFiles in target.flavors then LibraryFilesRule
    else LibraryRule
  }

  // ---------------------------------------------------------------------------
  // Library dependencies

  /** `hasFlavors()` of the library builder. */
  predicate HasFlavors(base: BuildTarget) {
    base.flavors != {}
  }

  /** `addFlavorsToLibraryTarget`. */
  function AddFlavorsToLibraryTarget(base: BuildTarget, dep: BuildTarget): BuildTarget {
    dep.WithAppendedFlavors(base.flavors)
  }

  /** The target a dependency is required as: with the library's flavors appended
      when it has any, unchanged otherwise. Either way, it carries its own flavors
      plus the library's. */
  function DependencyTarget(base: BuildTarget, dep: BuildTarget): (r: BuildTarget)
    ensures !HasFlavors(base) ==> r == dep
    ensures r.unflavored == dep.unflavored
    ensures forall f :: f in r.flavors <==> f in dep.flavors || f in base.flavors
  {
    if HasFlavors(base) then AddFlavorsToLibraryTarget(base, dep) else dep
  }

  /** `verifyIsJsLibraryRule`. */
  function VerifyIsJsLibraryRule(base: BuildTarget, rule: BuildRule, graph: Graph): (r: Result<BuildRule, JsError>)
    ensures r.Success? <==> rule.ruleType == JsLibraryType
    ensures r.Success? ==> r.value == rule
    ensures r.Failure? ==> r.error == NotAJsLibrary(base, rule.target, graph.ruleTypeName(rule.target))
  {
    if rule.ruleType != JsLibraryType then
      Failure(NotAJsLibrary(base, rule.target, graph.ruleTypeName(rule.target)))
    else Success(rule)
  }

  /** Keeps, in order, the targets `keep` accepts. */
  function Filter(targets: seq<BuildTarget>, keep: BuildTarget -> bool): (r: seq<BuildTarget>)
    ensures |r| <= |targets|
    ensures forall t :: t in r <==> t in targets && keep(t)
    ensures (forall i :: 0 <= i < |targets| ==> keep(targets[i])) ==> r == targets
    decreases |targets|
  {
    if |targets| == 0 then []
    else
      var rest := Filter(targets[1..], keep);
      assert forall t :: t in targets[1..] <==> exists i :: 1 <= i < |targets| && targets[i] == t by {
        forall t | t in targets[1..]
          ensures exists i :: 1 <= i < |targets| && targets[i] == t
        {
          var k :| 0 <= k < |targets[1..]| && targets[1..][k] == t;
          assert targets[k + 1] == t;
        }
      }
      assert targets == [targets[0]] + targets[1..];
      if keep(targets[0]) then [targets[0]] + rest else rest
  }

  /** Filtering a concatenation filters each part and keeps the parts in order. */
  lemma {:induction false} FilterAppend(a: seq<BuildTarget>, b: seq<BuildTarget>, keep: BuildTarget -> bool)
    ensures Filter(a + b, keep) == Filter(a, keep) + Filter(b, keep)
    decreases |a|
  {
    if |a| == 0 {
      assert a + b == b;
    } else {
      assert (a + b)[1..] == a[1..] + b;
      FilterAppend(a[1..], b, keep);
    }
  }

  /** A single target is kept exactly when `keep` accepts it. With `FilterAppend`
      this fixes the result for every input: the kept targets, in their order. */
  lemma FilterSingleton(t: BuildTarget, keep: BuildTarget -> bool)
    ensures Filter([t], keep) == if keep(t) then [t] else []
  {
  }

  /** The dependencies of a library rule: the declared deps, then the targets the
      deps query resolved to that are `js_library` targets. */
  function LibraryDependencies(args: JsLibraryArg, isJsLibraryTarget: BuildTarget -> bool): (r: seq<BuildTarget>)
    ensures |r| >= |args.deps| && r[..|args.deps|] == args.deps
    ensures args.depsQuery.None? ==> r == args.deps
    ensures args.depsQuery.Some? ==>
      forall t :: t in r[|args.deps|..] <==> t in args.depsQuery.value.resolved && isJsLibraryTarget(t)
    ensures args.depsQuery.Some? ==> r[|args.deps|..] == Filter(args.depsQuery.value.resolved, isJsLibraryTarget)
  {
    var queryDeps := match args.depsQuery
      case Some(q) => Filter(q.resolved, isJsLibraryTarget)
      case None => [];
    assert (args.deps + queryDeps)[|args.deps|..] == queryDeps;
    args.deps + queryDeps
  }

  /** The dependency, flavored like the library, is required as a `js_library` rule. */
  predicate IsLibraryDependency(base: BuildTarget, dep: BuildTarget, graph: Graph) {
    graph.requireRule(DependencyTarget(base, dep)).ruleType == JsLibraryType
  }

  /** Every dependency, flavored like the library, is required as a `js_library` rule. */
  ghost predicate AllLibraryDependencies(base: BuildTarget, deps: seq<BuildTarget>, graph: Graph) {
    forall i :: 0 <= i < |deps| ==> IsLibraryDependency(base, deps[i], graph)
  }

  /** `rules` are the rules of `deps`, each flavored like `base`, position by position. */
  ghost predicate AreDependencyRules(rules: seq<BuildRule>, base: BuildTarget, deps: seq<BuildTarget>, graph: Graph) {
    && |rules| == |deps|
    && forall i :: 0 <= i < |deps| ==> rules[i] == graph.requireRule(DependencyTarget(base, deps[i]))
  }

  /** The position of the first dependency that is not a `js_library` rule, or the
      number of dependencies when there is none. */
  function FirstNonLibrary(base: BuildTarget, deps: seq<BuildTarget>, graph: Graph): (k: nat)
    ensures k <= |deps|
    ensures forall j :: 0 <= j < k ==> IsLibraryDependency(base, deps[j], graph)
    ensures k < |deps| ==> !IsLibraryDependency(base, deps[k], graph)
    decreases |deps|
  {
    if |deps| == 0 || !IsLibraryDependency(base, deps[0], graph) then 0
    else
      var k := FirstNonLibrary(base, deps[1..], graph);
      assert forall j :: 1 <= j < |deps| ==> deps[j] == deps[1..][j - 1];
      k + 1
  }

  /** `setLibraryDependencies`: each dependency, flavored like the library, is
      required from the action graph and must be a `js_library` rule; the first one
      that is not ends the stream with an error. */
  function SetLibraryDependencies(base: BuildTarget, deps: seq<BuildTarget>, graph: Graph)
    : (r: Result<seq<BuildRule>, JsError>)
    ensures r.Success? <==> FirstNonLibrary(base, deps, graph) == |deps|
    ensures r.Success? ==>
      |r.value| == |deps|
      && forall i :: 0 <= i < |deps| ==> r.value[i] == graph.requireRule(DependencyTarget(base, deps[i]))
    ensures r.Failure? ==>
      var rule := graph.requireRule(DependencyTarget(base, deps[FirstNonLibrary(base, deps, graph)]));
      r.error == NotAJsLibrary(base, rule.target, graph.ruleTypeName(rule.target))
    decreases |deps|
  {
    if |deps| == 0 then Success([])
    else
      var rule := graph.requireRule(DependencyTarget(base, deps[0]));
      var first := VerifyIsJsLibraryRule(base, rule, graph);
      if first.Failure? then Failure(first.error)
      else
        var rest := SetLibraryDependencies(base, deps[1..], graph);
        assert forall i :: 1 <= i < |deps| ==> deps[i] == deps[1..][i - 1];
        if rest.Failure? then Failure(rest.error)
        else Success([first.value] + rest.value)
  }

  // ---------------------------------------------------------------------------
  // The argument

  /** `withDepsQuery`: the argument itself when it already has that query, otherwise
      a copy that differs only in its deps query. */
  function WithDepsQuery(args: JsLibraryArg, query: Query): (r: JsLibraryArg)
    ensures r.depsQuery == Some(query)
    ensures r.(depsQuery := args.depsQuery) == args
    ensures args.depsQuery == Some(query) ==> r == args
  {
    if args.depsQuery == Some(query) then args else args.(depsQuery := Some(query))
  }

  lemma WithDepsQueryIdempotent(args: JsLibraryArg, query: Query)
    ensures WithDepsQuery(WithDepsQuery(args, query), query) == WithDepsQuery(args, query)
  {
  }

  // ---------------------------------------------------------------------------
  // createBuildRule

  /** What `createBuildRule` builds, with the targets it requires along the way. */
  datatype RulePlan =
    | ReleaseFilePlan(target: BuildTarget, devTarget: BuildTarget)
    | DevFilePlan(target: BuildTarget, sourcePath: SourcePath, subPath: Option<Path>)
    | LibraryFilesPlan(target: BuildTarget, fileTargets: seq<BuildTarget>)
    | LibraryPlan(target: BuildTarget, filesTarget: BuildTarget, dependencies: seq<BuildRule>)

  /** `getRuleWithType(target, type)`: the required rule, if it has the expected type. */
  function RuleWithType(graph: Graph, target: BuildTarget, expected: RuleType): (r: Result<BuildRule, JsError>)
    ensures r.Success? <==> graph.requireRule(target).ruleType == expected
    ensures r.Success? ==> r.value == graph.requireRule(target)
    ensures r.Failure? ==> r.error == WrongRuleType(target, expected)
  {
    var rule := graph.requireRule(target);
    if rule.ruleType == expected then Success(rule) else Failure(WrongRuleType(target, expected))
  }

  /** The per-file target of one source: the file base target plus that source's
      file flavor. */
  function PerFileTarget(fileBase: BuildTarget, sourcesToFlavors: map<Source, Flavor>, file: Source): BuildTarget
    requires file in sourcesToFlavors
  {
    fileBase.WithAppendedFlavors({sourcesToFlavors[file]})
  }

  /** Every source's per-file target is required as a js file rule. */
  ghost predicate AllJsFiles(fileBase: BuildTarget, sourcesToFlavors: map<Source, Flavor>, sources: seq<Source>, graph: Graph)
    requires forall i :: 0 <= i < |sources| ==> sources[i] in sourcesToFlavors
  {
    forall i :: 0 <= i < |sources| ==>
      graph.requireRule(PerFileTarget(fileBase, sourcesToFlavors, sources[i])).ruleType == JsFileType
  }

  /** `targets` are the per-file targets of `sources`, position by position. */
  ghost predicate ArePerFileTargets(targets: seq<BuildTarget>, fileBase: BuildTarget,
                                    sourcesToFlavors: map<Source, Flavor>, sources: seq<Source>)
    requires forall i :: 0 <= i < |sources| ==> sources[i] in sourcesToFlavors
  {
    && |targets| == |sources|
    && forall i :: 0 <= i < |sources| ==> targets[i] == PerFileTarget(fileBase, sourcesToFlavors, sources[i])
  }

  /** `requireJsFile`: the per-file target of one source, which must be a js file rule. */
  function RequireJsFile(fileBase: BuildTarget, sourcesToFlavors: map<Source, Flavor>, file: Source, graph: Graph)
    : (r: Result<BuildTarget, JsError>)
    requires file in sourcesToFlavors
    ensures r.Success? ==>
      r.value.unflavored == fileBase.unflavored
      && forall f :: f in r.value.flavors <==> f in fileBase.flavors || f == sourcesToFlavors[file]
    ensures r.Success? <==> graph.requireRule(PerFileTarget(fileBase, sourcesToFlavors, file)).ruleType == JsFileType
    ensures r.Failure? ==> r.error == WrongRuleType(PerFileTarget(fileBase, sourcesToFlavors, file), JsFileType)
  {
    var target := PerFileTarget(fileBase, sourcesToFlavors, file);
    var rule :- RuleWithType(graph, target, JsFileType);
    Success(target)
  }

  /** `setSources` of the library-files builder: one per-file target per source, in
      order; the first one that is not a js file rule ends the stream with an error. */
  function RequireJsFiles(fileBase: BuildTarget, sourcesToFlavors: map<Source, Flavor>, sources: seq<Source>, graph: Graph)
    : (r: Result<seq<BuildTarget>, JsError>)
    requires forall i :: 0 <= i < |sources| ==> sources[i] in sourcesToFlavors
    ensures r.Success? <==> AllJsFiles(fileBase, sourcesToFlavors, sources, graph)
    ensures r.Failure? ==>
      exists k ::
        && 0 <= k < |sources|
        && (forall i :: 0 <= i < k ==>
              graph.requireRule(PerFileTarget(fileBase, sourcesToFlavors, sources[i])).ruleType == JsFileType)
        && graph.requireRule(PerFileTarget(fileBase, sourcesToFlavors, sources[k])).ruleType != JsFileType
        && r.error == WrongRuleType(PerFileTarget(fileBase, sourcesToFlavors, sources[k]), JsFileType)
    ensures r.Success? ==>
      |r.value| == |sources|
      && forall i :: 0 <= i < |sources| ==> r.value[i] == PerFileTarget(fileBase, sourcesToFlavors, sources[i])
    decreases |sources|
  {
    if |sources| == 0 then Success([])
    else
      var first := RequireJsFile(fileBase, sourcesToFlavors, sources[0], graph);
      if first.Failure? then Failure(first.error)
      else
        var rest := RequireJsFiles(fileBase, sourcesToFlavors, sources[1..], graph);
        assert forall i :: 1 <= i < |sources| ==> sources[i] == sources[1..][i - 1];
        if rest.Failure? then Failure(rest.error)
        else Success([first.value] + rest.value)
  }

  /** `createReleaseFileRule` / `createDevFileRule`: a release file rule requires the
      development target of the same file, which must be a js file rule; a
      development file rule reads the extracted source. */
  function FileRulePlan(target: BuildTarget, file: Source, graph: Graph, jf: JsFlavors): (r: Result<RulePlan, JsError>)
    ensures jf.release in target.flavors ==>
      && (r.Success? <==> graph.requireRule(WithFileFlavorOnly(target, jf)).ruleType == JsFileType)
      && (r.Success? ==> r.value == ReleaseFilePlan(target, WithFileFlavorOnly(target, jf)))
    ensures jf.release !in target.flavors ==>
      && r.Success? && r.value.DevFilePlan? && r.value.target == target
      && SplitSource(file) == (r.value.sourcePath, r.value.subPath)
  {
    if jf.release in target.flavors then
      var devTarget := WithFileFlavorOnly(target, jf);
      var devRule :- RuleWithType(graph, devTarget, JsFileType);
      Success(ReleaseFilePlan(target, devTarget))
    else
      var (sourcePath, subPath) := SplitSource(file);
      Success(DevFilePlan(target, sourcePath, subPath))
  }

  /** The library-files builder: the per-file targets of all sources, and the target
      with `LIBRARY_FILES` appended. */
  function LibraryFilesRulePlan(target: BuildTarget, sourcesToFlavors: map<Source, Flavor>, sources: seq<Source>,
                                graph: Graph, jf: JsFlavors): (r: Result<RulePlan, JsError>)
    requires forall i :: 0 <= i < |sources| ==> sources[i] in sourcesToFlavors
    ensures r.Success? <==> AllJsFiles(FileBaseTarget(target, jf), sourcesToFlavors, sources, graph)
    ensures r.Success? ==>
      && r.value.LibraryFilesPlan?
      && r.value.target == target.WithAppendedFlavors({jf.libraryFiles})
      && ArePerFileTargets(r.value.fileTargets, FileBaseTarget(target, jf), sourcesToFlavors, sources)
  {
    var fileTargets :- RequireJsFiles(FileBaseTarget(target, jf), sourcesToFlavors, sources, graph);
    Success(LibraryFilesPlan(target.WithAppendedFlavors({jf.libraryFiles}), fileTargets))
  }

  /** The library builder: the dependency rules, then the library-files rule of the
      same target, which must have the library-files type. */
  function LibraryRulePlan(target: BuildTarget, deps: seq<BuildTarget>, graph: Graph, jf: JsFlavors)
    : (r: Result<RulePlan, JsError>)
    ensures r.Success? <==>
      && AllLibraryDependencies(target, deps, graph)
      && graph.requireRule(target.WithAppendedFlavors({jf.libraryFiles})).ruleType == JsLibraryFilesType
    ensures r.Success? ==>
      && r.value.LibraryPlan?
      && r.value.target == target
      && r.value.filesTarget == target.WithAppendedFlavors({jf.libraryFiles})
      && AreDependencyRules(r.value.dependencies, target, deps, graph)
  {
    var dependencies :- SetLibraryDependencies(target, deps, graph);
    var filesTarget := target.WithAppendedFlavors({jf.libraryFiles});
    var filesRule :- RuleWithType(graph, filesTarget, JsLibraryFilesType);
    Success(LibraryPlan(target, filesTarget, dependencies))
  }

  /** What `createBuildRule` needs to produce a rule: the sources have distinct
      flavors, the worker is a worker tool, and every rule the dispatched branch
      requires has the type that branch expects. */
  ghost predicate BuildRequirementsMet(target: BuildTarget, args: JsLibraryArg, graph: Graph, jf: JsFlavors,
                                       relativePath: SourcePath -> Path, isJsLibraryTarget: BuildTarget -> bool)
  {
    var m := MapSourcesToFlavors(args.srcs, relativePath, jf);
    && m.Success?
    && graph.requireRule(args.worker).ruleType == WorkerToolType
    && match Dispatch(target, m.value.Values, jf)
       case ReleaseFileRule => graph.requireRule(WithFileFlavorOnly(target, jf)).ruleType == JsFileType
       case DevFileRule => true
       case LibraryFilesRule => AllJsFiles(FileBaseTarget(target, jf), m.value, args.srcs, graph)
       case LibraryRule =>
         && AllLibraryDependencies(target, LibraryDependencies(args, isJsLibraryTarget), graph)
         && graph.requireRule(target.WithAppendedFlavors({jf.libraryFiles})).ruleType == JsLibraryFilesType
  }

  /** `createBuildRule`, with `relativePath` resolving source paths, `flavorOrder`
      the iteration order of the target's flavor set, and `isJsLibraryTarget`
      classifying the targets a deps query resolved to. A plan is produced only when
      the build requirements are met (and always then, by `CreateBuildRuleSucceeds`),
      and it follows the dispatch. */
  function CreateBuildRule(target: BuildTarget, args: JsLibraryArg, graph: Graph, jf: JsFlavors,
                           relativePath: SourcePath -> Path, flavorOrder: seq<Flavor>,
                           isJsLibraryTarget: BuildTarget -> bool)
    : (r: Result<RulePlan, JsError>)
    requires forall f :: f in flavorOrder <==> f in target.flavors
    ensures r.Success? ==> BuildRequirementsMet(target, args, graph, jf, relativePath, isJsLibraryTarget)
    ensures r.Success? ==>
      var m := MapSourcesToFlavors(args.srcs, relativePath, jf);
      && m.Success?
      && match Dispatch(target, m.value.Values, jf)
         case ReleaseFileRule => r.value == ReleaseFilePlan(target, WithFileFlavorOnly(target, jf))
         case DevFileRule =>
           && r.value.DevFilePlan?
           && r.value.target == target
           && var file := ExtractSource(m.value, args.srcs, flavorOrder);
              file.Some? && SplitSource(file.value) == (r.value.sourcePath, r.value.subPath)
         case LibraryFilesRule =>
           && r.value.LibraryFilesPlan?
           && r.value.target == target
           && ArePerFileTargets(r.value.fileTargets, FileBaseTarget(target, jf), m.value, args.srcs)
         case LibraryRule =>
           && r.value.LibraryPlan?
           && r.value.target == target
           && r.value.filesTarget == target.WithAppendedFlavors({jf.libraryFiles})
           && AreDependencyRules(r.value.dependencies, target, LibraryDependencies(args, isJsLibraryTarget), graph)
  {
    var sourcesToFlavors :- MapSourcesToFlavors(args.srcs, relativePath, jf);
    var file := ExtractSource(sourcesToFlavors, args.srcs, flavorOrder);
    ExtractSourceFindsFileFlavor(sourcesToFlavors, args.srcs, flavorOrder, target);
    var worker :- RuleWithType(graph, args.worker, WorkerToolType);
    if file.Some? then FileRulePlan(target, file.value, graph, jf)
    else if jf.libraryFiles in target.flavors then
      LibraryFilesRulePlan(target, sourcesToFlavors, args.srcs, graph, jf)
    else LibraryRulePlan(target, LibraryDependencies(args, isJsLibraryTarget), graph, jf)
  }

  /** When the build requirements are met, `createBuildRule` produces a plan. */
  lemma CreateBuildRuleSucceeds(target: BuildTarget, args: JsLibraryArg, graph: Graph, jf: JsFlavors,
                                relativePath: SourcePath -> Path, flavorOrder: seq<Flavor>,
                                isJsLibraryTarget: BuildTarget -> bool)
    requires forall f :: f in flavorOrder <==> f in target.flavors
    requires BuildRequirementsMet(target, args, graph, jf, relativePath, isJsLibraryTarget)
    ensures CreateBuildRule(target, args, graph, jf, relativePath, flavorOrder, isJsLibraryTarget).Success?
  {
  }

  /** Sources with colliding file flavors fail the rule with the bimap builder's
      duplicate-flavor error, before the worker or any other rule is consulted. */
  lemma CreateBuildRuleDuplicateFlavor(target: BuildTarget, args: JsLibraryArg, graph: Graph, jf: JsFlavors,
                                       relativePath: SourcePath -> Path, flavorOrder: seq<Flavor>,
                                       isJsLibraryTarget: BuildTarget -> bool)
    requires forall f :: f in flavorOrder <==> f in target.flavors
    requires !DistinctFlavors(args.srcs, relativePath, jf)
    ensures CreateBuildRule(target, args, graph, jf, relativePath, flavorOrder, isJsLibraryTarget)
      == Failure(MapSourcesToFlavors(args.srcs, relativePath, jf).error)
    ensures MapSourcesToFlavors(args.srcs, relativePath, jf).error.DuplicateSourceFlavor?
  {
  }

  // ---------------------------------------------------------------------------
  // How the targets one rule requires are themselves dispatched

  /** The flavors of a library's sources are file flavors, none of them `RELEASE`
      or `LIBRARY_FILES`. */
  ghost predicate FileFlavorsOnly(sourceFlavors: set<Flavor>, jf: JsFlavors) {
    forall f :: f in sourceFlavors ==> jf.isFileFlavor(f)
  }

  /** The source-to-flavor map is a bijection: distinct sources get distinct file
      flavors, all of them file flavors when the catalogue is well formed. */
  lemma SourceFlavorsBijective(sources: seq<Source>, relativePath: SourcePath -> Path, jf: JsFlavors)
    requires DistinctFlavors(sources, relativePath, jf)
    ensures MapSourcesToFlavors(sources, relativePath, jf).Success?
    ensures var m := MapSourcesToFlavors(sources, relativePath, jf).value;
      forall s, t :: s in m && t in m && s != t ==> m[s] != m[t]
    ensures WellFormed(jf) ==> FileFlavorsOnly(MapSourcesToFlavors(sources, relativePath, jf).value.Values, jf)
  {
    var m := MapSourcesToFlavors(sources, relativePath, jf).value;
    forall s, t | s in m && t in m && s != t
      ensures m[s] != m[t]
    {
      var i :| 0 <= i < |sources| && sources[i] == s;
      var j :| 0 <= j < |sources| && sources[j] == t;
      if i < j {
        assert FlavorOf(sources[i], relativePath, jf) != FlavorOf(sources[j], relativePath, jf);
      } else {
        assert FlavorOf(sources[j], relativePath, jf) != FlavorOf(sources[i], relativePath, jf);
      }
    }
  }

  /** The development target a release file rule requires is built by the
      development file rule. */
  lemma ReleaseDevTargetIsDevFile(target: BuildTarget, sourceFlavors: set<Flavor>, jf: JsFlavors)
    requires WellFormed(jf)
    requires FileFlavorsOnly(sourceFlavors, jf)
    requires Dispatch(target, sourceFlavors, jf) == ReleaseFileRule
    ensures Dispatch(WithFileFlavorOnly(target, jf), sourceFlavors, jf) == DevFileRule
  {
  }

  /** The per-file targets of a library-files rule are built by the release file rule
      when the library target has `RELEASE`, and by the development file rule otherwise. */
  lemma PerFileTargetsAreFileRules(base: BuildTarget, sourceFlavors: set<Flavor>, jf: JsFlavors, f: Flavor)
    requires WellFormed(jf)
    requires FileFlavorsOnly(sourceFlavors, jf)
    requires f in sourceFlavors
    ensures var fileTarget := FileBaseTarget(base, jf).WithAppendedFlavors({f});
      Dispatch(fileTarget, sourceFlavors, jf) == if jf.release in base.flavors then ReleaseFileRule else DevFileRule
  {
  }

  /** Without `RELEASE`, per-file targets carry nothing but transform-profile flavors
      and their own file flavor: platform, optimisation and `LIBRARY_FILES` are gone. */
  lemma PerFileTargetFlavors(base: BuildTarget, jf: JsFlavors, f: Flavor, g: Flavor)
    requires jf.release !in base.flavors
    requires g in FileBaseTarget(base, jf).WithAppendedFlavors({f}).flavors
    ensures g == f || (g in base.flavors && g in jf.transformProfileDomain)
  {
  }

  /** The library-files target a library rule requires is built by the library-files rule. */
  lemma LibraryFilesTargetIsLibraryFilesRule(target: BuildTarget, sourceFlavors: set<Flavor>, jf: JsFlavors)
    requires WellFormed(jf)
    requires FileFlavorsOnly(sourceFlavors, jf)
    requires Dispatch(target, sourceFlavors, jf) == LibraryRule
    ensures Dispatch(target.WithAppendedFlavors({jf.libraryFiles}), sourceFlavors, jf) == LibraryFilesRule
  {
  }
}

=== FILE: paths.dfy ===
/** File-system paths as sequences of name segments, the way `java.nio.file.Path`
    compares and concatenates them (segment-wise, not character-wise). */
module Paths {

  type Segment = string

  /** An absolute or relative path, one element per name segment. */
  type Path = seq<Segment>

  /** `path.startsWith(prefix)`: the segments of `prefix` are the leading segments of `path`. */
  predicate StartsWith(path: Path, prefix: Path) {
    prefix <= path
  }

  /** `base.resolve(relative)` for a relative path without `..` segments. */
  function Resolve(base: Path, relative: Path): (r: Path)
    ensures StartsWith(r, base)
    ensures |r| == |base| + |relative|
    ensures r[|base|..] == relative
  {
    base + relative
  }
}

=== FILE: per_build_state.dfy ===
/** The per-build parser session: a registry of cells keyed by root path that grows
    as targets in newly seen cells are looked up, the wiring of the parse pipelines
    made at construction, the checks done before delegating to them, and the order
    in which `close` releases the owned resources. The pipelines, the parser pool and
    the symlink cache are opaque; only the calls the session makes on them are kept. */
module PerBuildState {
  import opened Wrappers
  import opened Paths
  import opened Targets

  /** The parser settings the session reads from the root cell's configuration. */
  datatype ParserConfig = ParserConfig(numParsingThreads: int, enableParallelParsing: bool)

  /** A cell: identified by its filesystem root; `name` and `parserConfig` stand for
      the rest of its configuration. */
  datatype Cell = Cell(root: Path, name: Option<string>, parserConfig: ParserConfig)

  datatype SpeculativeParsing = Enabled | Disabled

  /** The executor the target-node pipeline runs on. */
  datatype Executor = SharedExecutor | DirectExecutor

  /** The resources the session owns and closes. */
  datatype Resource = TargetNodePipeline | RawNodePipeline | ParserPool | SymlinkCache

  /** One `symlinkCache.registerCell(root, cell)` notification. */
  datatype Registration = Registration(root: Path, cell: Cell)

  datatype State = State(
    cells: map<Path, Cell>,
    symlinkRegistrations: seq<Registration>,
    targetNodeExecutor: Executor,
    speculativeParsing: bool,
    maxParsersPerCell: int,
    profiling: bool)

  datatype ParseError =
    | CellNotFound(target: BuildTarget, cellPath: Path)
    | IllegalState

  /** A successful cell lookup: the state afterwards and the owning cell. */
  datatype Lookup = Lookup(state: State, cell: Cell)

  datatype Query =
    | TargetNodeOf(target: BuildTarget)
    | AllTargetNodesIn(buildFile: Path)
    | AllRawNodesIn(buildFile: Path)

  /** A request handed to one of the pipelines; `job` marks the future-returning variant. */
  datatype Delegation = Delegation(pipeline: Resource, cell: Cell, query: Query, job: bool)

  /** `registerInputsUnderSymlinks` forwarded to the symlink cache. */
  datatype SymlinkCheck = SymlinkCheck(owningCell: Cell, declaringCell: Cell, buildFile: Path, target: BuildTarget)

  /** Registry invariant: each cell is stored under its own root, and the symlink
      cache was told about each registered root exactly once, with the stored cell. */
  ghost predicate Valid(s: State) {
    && (forall k :: k in s.cells ==> s.cells[k].root == k)
    && (forall i :: 0 <= i < |s.symlinkRegistrations| ==>
          s.symlinkRegistrations[i].root in s.cells
          && s.cells[s.symlinkRegistrations[i].root] == s.symlinkRegistrations[i].cell)
    && (forall i, j :: 0 <= i < j < |s.symlinkRegistrations| ==>
          s.symlinkRegistrations[i].root != s.symlinkRegistrations[j].root)
    && s.cells.Keys == Roots(s.symlinkRegistrations)
  }

  /** The roots the symlink cache has been told about. */
  function Roots(log: seq<Registration>): set<Path> {
    set i | 0 <= i < |log| :: log[i].root
  }

  lemma RootsAppend(log: seq<Registration>, reg: Registration)
    ensures Roots(log + [reg]) == Roots(log) + {reg.root}
  {
    var log' := log + [reg];
    forall k | k in Roots(log')
      ensures k in Roots(log) + {reg.root}
    {
      var i :| 0 <= i < |log'| && log'[i].root == k;
      if i < |log| {
        assert log'[i] == log[i];
      }
    }
    forall k | k in Roots(log) + {reg.root}
      ensures k in Roots(log')
    {
      if k == reg.root {
        assert log'[|log|].root == k;
      } else {
        var i :| 0 <= i < |log| && log[i].root == k;
        assert log'[i] == log[i];
      }
    }
  }

  /** The registry never loses or replaces an entry. */
  ghost predicate Grows(s: State, s': State) {
    && (forall k :: k in s.cells ==> k in s'.cells && s'.cells[k] == s.cells[k])
    && s.symlinkRegistrations <= s'.symlinkRegistrations
  }

  /** `order` lists the registry's keys, in the (unspecified) order the map iterates them. */
  ghost predicate Enumerates(order: seq<Path>, keys: set<Path>) {
    && (forall i :: 0 <= i < |order| ==> order[i] in keys)
    && (forall k :: k in keys ==> k in order)
  }

  /** `register(cell)`: a new root is stored and announced to the symlink cache once;
      a known root leaves everything as it was. */
  function Register(s: State, c: Cell): (r: State)
    ensures c.root in s.cells ==> r == s
    ensures c.root !in s.cells ==>
      r == s.(cells := s.cells[c.root := c], symlinkRegistrations := s.symlinkRegistrations + [Registration(c.root, c)])
    ensures c.root in r.cells && r.cells.Keys == s.cells.Keys + {c.root}
    ensures Grows(s, r)
  {
    if c.root in s.cells then s
    else s.(cells := s.cells[c.root := c],
            symlinkRegistrations := s.symlinkRegistrations + [Registration(c.root, c)])
  }

  /** Registration keeps the registry invariant: a new root's cell is stored under
      that root and announced once, after every earlier announcement. */
  lemma RegisterKeepsValid(s: State, c: Cell)
    ensures Valid(s) ==> Valid(Register(s, c))
  {
    if Valid(s) && c.root !in s.cells {
      RootsAppend(s.symlinkRegistrations, Registration(c.root, c));
    }
  }

  /** Registering the same cell twice is the same as registering it once. */
  lemma RegisterIdempotent(s: State, c: Cell)
    ensures Register(Register(s, c), c) == Register(s, c)
  {
  }

  /** The cell `possibleOwner.getCellIfKnown(target)` yields for the first cell in
      `order` that recognises the target, if any does. */
  function FindOwner(cells: map<Path, Cell>, order: seq<Path>, target: BuildTarget,
                     recognise: (Cell, BuildTarget) -> Option<Cell>): (r: Option<Cell>)
    requires forall i :: 0 <= i < |order| ==> order[i] in cells
    ensures r.None? <==> forall i :: 0 <= i < |order| ==> recognise(cells[order[i]], target).None?
    ensures r.Some? ==> exists i :: 0 <= i < |order| && recognise(cells[order[i]], target) == r
                           && forall j :: 0 <= j < i ==> recognise(cells[order[j]], target).None?
    decreases |order|
  {
    if |order| == 0 then None
    else
      var answer := recognise(cells[order[0]], target);
      if answer.Some? then answer
      else
        var rest := FindOwner(cells, order[1..], target, recognise);
        assert forall i :: 1 <= i < |order| ==> order[i] == order[1..][i - 1];
        rest
  }

  /** `getCell(target)`: the cell registered under the target's cell path; otherwise
      the cell some known cell recognises the target as belonging to, registered on
      the way; otherwise an error naming the target and its cell path. */
  function GetCell(s: State, target: BuildTarget, recognise: (Cell, BuildTarget) -> Option<Cell>,
                   order: seq<Path>): (r: Result<Lookup, ParseError>)
    requires Enumerates(order, s.cells.Keys)
    ensures target.CellPath() in s.cells ==> r == Success(Lookup(s, s.cells[target.CellPath()]))
    ensures Valid(s) && target.CellPath() in s.cells ==> r.value.cell.root == target.CellPath()
    ensures r.Failure? <==>
      target.CellPath() !in s.cells && forall k :: k in s.cells ==> recognise(s.cells[k], target).None?
    ensures r.Failure? ==> r.error == CellNotFound(target, target.CellPath())
    ensures r.Success? && target.CellPath() !in s.cells ==>
      && (exists k :: k in s.cells && recognise(s.cells[k], target) == Some(r.value.cell))
      && r.value.state == Register(s, r.value.cell)
    ensures Valid(s) && r.Success? ==> r.value.cell.root in r.value.state.cells
    ensures r.Success? ==> r.value.state.cells.Keys <= s.cells.Keys + {r.value.cell.root}
    ensures r.Success? ==> Grows(s, r.value.state) && (Valid(s) ==> Valid(r.value.state))
  {
    if target.CellPath() in s.cells then
      Success(Lookup(s, s.cells[target.CellPath()]))
    else
      match FindOwner(s.cells, order, target, recognise)
      case Some(owner) =>
        RegisterKeepsValid(s, owner);
        Success(Lookup(Register(s, owner), owner))
      case None =>
        assert forall k :: k in s.cells ==> recognise(s.cells[k], target).None? by {
          forall k | k in s.cells
            ensures recognise(s.cells[k], target).None?
          {
            var i :| 0 <= i < |order| && order[i] == k;
          }
        }
        Failure(CellNotFound(target, target.CellPath()))
  }

  /** When recognised cells are rooted at the target's cell path, as a cell that knows
      the target's cell would answer, a second lookup of the same target is a hit that
      returns the same cell and changes nothing. */
  lemma SecondLookupHits(s: State, target: BuildTarget, recognise: (Cell, BuildTarget) -> Option<Cell>,
                         order: seq<Path>, first: Lookup, order': seq<Path>)
    requires Valid(s)
    requires Enumerates(order, s.cells.Keys)
    requires forall c: Cell :: recognise(c, target).Some? ==> recognise(c, target).value.root == target.CellPath()
    requires GetCell(s, target, recognise, order) == Success(first)
    requires Enumerates(order', first.state.cells.Keys)
    ensures GetCell(first.state, target, recognise, order') == Success(first)
  {
    if target.CellPath() !in s.cells {
      var k :| k in s.cells && recognise(s.cells[k], target) == Some(first.cell);
    }
  }

  /** The session's constructor: pipelines wired from the root cell's parser settings,
      then the root cell registered. */
  function New(rootCell: Cell, speculative: SpeculativeParsing, enableProfiling: bool): (s: State)
    ensures Valid(s)
    ensures s.cells == map[rootCell.root := rootCell]
    ensures s.symlinkRegistrations == [Registration(rootCell.root, rootCell)]
    ensures s.speculativeParsing <==> rootCell.parserConfig.enableParallelParsing && speculative == Enabled
    ensures s.targetNodeExecutor == DirectExecutor <==> !rootCell.parserConfig.enableParallelParsing
    ensures s.maxParsersPerCell == rootCell.parserConfig.numParsingThreads
    ensures s.profiling == enableProfiling
  {
    var config := rootCell.parserConfig;
    var wired := State(
      map[], [],
      if config.enableParallelParsing then SharedExecutor else DirectExecutor,
      config.enableParallelParsing && speculative == Enabled,
      config.numParsingThreads,
      enableProfiling);
    RootsAppend([], Registration(rootCell.root, rootCell));
    RegisterKeepsValid(wired, rootCell);
    Register(wired, rootCell)
  }

  /** `getTargetNode` / `getTargetNodeJob`: resolve the owning cell, then ask the
      target-node pipeline for the node in that cell. */
  function GetTargetNode(s: State, target: BuildTarget, recognise: (Cell, BuildTarget) -> Option<Cell>,
                         order: seq<Path>, job: bool): (r: Result<(State, Delegation), ParseError>)
    requires Enumerates(order, s.cells.Keys)
    ensures r.Success? <==> GetCell(s, target, recognise, order).Success?
    ensures r.Failure? ==> r.error == CellNotFound(target, target.CellPath())
    ensures r.Success? ==>
      var lookup := GetCell(s, target, recognise, order).value;
      && r.value.0 == lookup.state
      && r.value.1 == Delegation(TargetNodePipeline, lookup.cell, TargetNodeOf(target), job)
  {
    var lookup :- GetCell(s, target, recognise, order);
    Success((lookup.state, Delegation(TargetNodePipeline, lookup.cell, TargetNodeOf(target), job)))
  }

  /** The check before every all-nodes request: the build file lies under the cell's root. */
  function CheckUnderCell(cell: Cell, buildFile: Path, d: Delegation): (r: Result<Delegation, ParseError>)
    ensures r.Success? <==> StartsWith(buildFile, cell.root)
    ensures r.Success? ==> r.value == d
    ensures r.Failure? ==> r.error == IllegalState
  {
    if StartsWith(buildFile, cell.root) then Success(d) else Failure(IllegalState)
  }

  /** `getAllTargetNodes` (`job` false) and `getAllTargetNodesJob` (`job` true). */
  function GetAllTargetNodes(cell: Cell, buildFile: Path, job: bool): (r: Result<Delegation, ParseError>)
    ensures r.Success? <==> StartsWith(buildFile, cell.root)
    ensures r.Success? ==> r.value == Delegation(TargetNodePipeline, cell, AllTargetNodesIn(buildFile), job)
  {
    CheckUnderCell(cell, buildFile, Delegation(TargetNodePipeline, cell, AllTargetNodesIn(buildFile), job))
  }

  /** `getAllRawNodes`: goes to the raw-node pipeline, skipping the symlink checks. */
  function GetAllRawNodes(cell: Cell, buildFile: Path): (r: Result<Delegation, ParseError>)
    ensures r.Success? <==> StartsWith(buildFile, cell.root)
    ensures r.Success? ==> r.value == Delegation(RawNodePipeline, cell, AllRawNodesIn(buildFile), false)
  {
    CheckUnderCell(cell, buildFile, Delegation(RawNodePipeline, cell, AllRawNodesIn(buildFile), false))
  }

  /** A build file passes the check exactly when it is some relative path resolved
      against the cell's root. */
  lemma {:induction false} UnderCellIsResolvedUnderRoot(cell: Cell, buildFile: Path, d: Delegation)
    ensures CheckUnderCell(cell, buildFile, d).Success? <==> exists rel :: buildFile == Resolve(cell.root, rel)
  {
    if StartsWith(buildFile, cell.root) {
      var rel := buildFile[|cell.root|..];
      assert buildFile == Resolve(cell.root, rel);
    }
  }

  /** The target-node listener: looks up the node's cell twice (the owning and the
      declaring cell passed to the symlink cache) and forwards the check. */
  function RegisterInputsUnderSymlinks(s: State, buildFile: Path, target: BuildTarget,
                                       recognise: (Cell, BuildTarget) -> Option<Cell>,
                                       order: seq<Path>, order': seq<Path>): (r: Result<(State, SymlinkCheck), ParseError>)
    requires Enumerates(order, s.cells.Keys)
    requires GetCell(s, target, recognise, order).Success? ==>
      Enumerates(order', GetCell(s, target, recognise, order).value.state.cells.Keys)
    ensures r.Success? <==> GetCell(s, target, recognise, order).Success?
    ensures r.Failure? ==> r.error == CellNotFound(target, target.CellPath())
    ensures r.Success? ==>
      var first := GetCell(s, target, recognise, order).value;
      && r.value.1.owningCell == first.cell
      && GetCell(first.state, target, recognise, order') == Success(Lookup(r.value.0, r.value.1.declaringCell))
    ensures r.Success? ==> Grows(s, r.value.0) && (Valid(s) ==> Valid(r.value.0))
    ensures r.Success? ==> r.value.1.buildFile == buildFile && r.value.1.target == target
  {
    var current := GetCell(s, target, recognise, order);
    if current.Failure? then Failure(current.error)
    else
      // The second lookup cannot fail: the cell that answered the first is still known.
      var again := GetCell(current.value.state, target, recognise, order');
      assert again.Success?;
      Success((again.value.state, SymlinkCheck(current.value.cell, again.value.cell, buildFile, target)))
  }

  /** For a target whose cell is already registered, the listener forwards that cell
      as both the owning and the declaring cell and leaves the state unchanged. */
  lemma RegisterInputsUnderSymlinksKnownCell(s: State, buildFile: Path, target: BuildTarget,
                                             recognise: (Cell, BuildTarget) -> Option<Cell>,
                                             order: seq<Path>, order': seq<Path>)
    requires Enumerates(order, s.cells.Keys)
    requires Enumerates(order', s.cells.Keys)
    requires target.CellPath() in s.cells
    ensures var c := s.cells[target.CellPath()];
      RegisterInputsUnderSymlinks(s, buildFile, target, recognise, order, order')
        == Success((s, SymlinkCheck(c, c, buildFile, target)))
  {
  }

  /** When recognised cells are rooted at the target's cell path, the owning and the
      declaring cell are the same cell, and the state is the one the first lookup left. */
  lemma RegisterInputsUnderSymlinksSameCell(s: State, buildFile: Path, target: BuildTarget,
                                            recognise: (Cell, BuildTarget) -> Option<Cell>,
                                            order: seq<Path>, order': seq<Path>)
    requires Valid(s)
    requires Enumerates(order, s.cells.Keys)
    requires forall c: Cell :: recognise(c, target).Some? ==> recognise(c, target).value.root == target.CellPath()
    requires GetCell(s, target, recognise, order).Success?
    requires Enumerates(order', GetCell(s, target, recognise, order).value.state.cells.Keys)
    ensures var first := GetCell(s, target, recognise, order).value;
      RegisterInputsUnderSymlinks(s, buildFile, target, recognise, order, order')
        == Success((first.state, SymlinkCheck(first.cell, first.cell, buildFile, target)))
  {
    var first := GetCell(s, target, recognise, order).value;
    SecondLookupHits(s, target, recognise, order, first, order');
  }

  /** The order in which `close` releases the owned resources. */
  const CloseOrder: seq<Resource> := [TargetNodePipeline, RawNodePipeline, ParserPool, SymlinkCache]

  /** What `close` did: the resources whose `close` was called, in call order, and
      the one whose `close` threw, if any. */
  datatype CloseOutcome = CloseOutcome(closed: seq<Resource>, failure: Option<Resource>)

  /** Plain sequential `close` calls: the first one that throws ends the sequence and
      its exception propagates. */
  function CloseInOrder(order: seq<Resource>, failing: set<Resource>): (r: CloseOutcome)
    ensures r.closed <= order
    ensures r.failure.None? <==> forall i :: 0 <= i < |order| ==> order[i] !in failing
    ensures r.failure.None? ==> r.closed == order
    ensures r.failure.Some? ==>
      |r.closed| > 0 && r.failure.value == r.closed[|r.closed| - 1] && r.failure.value in failing
    ensures forall i :: 0 <= i < |r.closed| - 1 ==> r.closed[i] !in failing
    decreases |order|
  {
    if |order| == 0 then CloseOutcome([], None)
    else if order[0] in failing then CloseOutcome([order[0]], Some(order[0]))
    else
      var rest := CloseInOrder(order[1..], failing);
      assert forall i :: 1 <= i < |order| ==> order[i] == order[1..][i - 1];
      CloseOutcome([order[0]] + rest.closed, rest.failure)
  }

  /** `close()`, when the resources in `failing` throw from their own `close`. */
  function Close(failing: set<Resource>): (r: CloseOutcome)
    ensures failing == {} ==> r == CloseOutcome([TargetNodePipeline, RawNodePipeline, ParserPool, SymlinkCache], None)
    ensures r.closed <= CloseOrder
    ensures TargetNodePipeline in failing ==> r == CloseOutcome([TargetNodePipeline], Some(TargetNodePipeline))
    ensures r.failure.Some? ==> r.failure.value in failing
    ensures r.failure.None? ==> r.closed == CloseOrder
    ensures r.failure.Some? ==> |r.closed| > 0 && r.closed[|r.closed| - 1] == r.failure.value
    ensures forall i :: 0 <= i < |r.closed| - 1 ==> r.closed[i] !in failing
  {
    CloseInOrder(CloseOrder, failing)
  }
}

=== FILE: sorted_sets.dfy ===
/** Guava's `ImmutableSortedSet.orderedBy(comparator)` modelled as a sequence that is
    strictly increasing under an abstract strict total order `lt` (the comparator's
    "compares below zero"). Elements the comparator calls equal are identical here,
    so a strictly increasing sequence is the set without duplicates, in order. */
module SortedSets {

  /** `lt` is irreflexive, transitive and relates every two distinct elements. */
  ghost predicate StrictTotalOrder<T(!new)>(lt: (T, T) -> bool) {
    && (forall x :: !lt(x, x))
    && (forall x, y, z :: lt(x, y) && lt(y, z) ==> lt(x, z))
    && (forall x, y :: x != y ==> lt(x, y) || lt(y, x))
  }

  /** `comparator.reversed()`. */
  function Reversed<T>(lt: (T, T) -> bool): (T, T) -> bool {
    (x, y) => lt(y, x)
  }

  lemma ReversedIsStrictTotalOrder<T(!new)>(lt: (T, T) -> bool)
    requires StrictTotalOrder(lt)
    ensures StrictTotalOrder(Reversed(lt))
  {
  }

  /** Every element is below every later one. */
  ghost predicate Ordered<T>(s: seq<T>, lt: (T, T) -> bool) {
    forall i, j :: 0 <= i < j < |s| ==> lt(s[i], s[j])
  }

  /** `builder.add(x)` on an ordered set: `x` is placed by the comparator, and an
      element the comparator calls equal to one already present adds nothing. */
  function Insert<T(!new)>(s: seq<T>, x: T, lt: (T, T) -> bool): (r: seq<T>)
    requires StrictTotalOrder(lt)
    requires Ordered(s, lt)
    ensures Ordered(r, lt)
    ensures forall y :: y in r <==> y in s || y == x
    ensures x in s ==> r == s
    decreases |s|
  {
    if |s| == 0 then [x]
    else if lt(x, s[0]) then
      assert forall y :: y in s ==> lt(x, y) by {
        forall y | y in s
          ensures lt(x, y)
        {
          var k :| 0 <= k < |s| && s[k] == y;
          assert k == 0 || lt(s[0], s[k]);
        }
      }
      PrependOrdered(x, s, lt);
      [x] + s
    else if !lt(s[0], x) then s
    else
      var rest := Insert(s[1..], x, lt);
      assert forall y :: y in rest ==> lt(s[0], y) by {
        forall y | y in rest
          ensures lt(s[0], y)
        {
          if y != x {
            var k :| 0 <= k < |s[1..]| && s[1..][k] == y;
            assert s[k + 1] == y;
          }
        }
      }
      PrependOrdered(s[0], rest, lt);
      assert s == [s[0]] + s[1..];
      [s[0]] + rest
  }

  /** An element below everything in an ordered sequence can be put in front of it. */
  lemma PrependOrdered<T>(h: T, t: seq<T>, lt: (T, T) -> bool)
    requires Ordered(t, lt)
    requires forall y :: y in t ==> lt(h, y)
    ensures Ordered([h] + t, lt)
  {
    forall i, j | 0 <= i < j < |[h] + t|
      ensures lt(([h] + t)[i], ([h] + t)[j])
    {
      assert ([h] + t)[j] == t[j - 1];
      if i > 0 {
        assert ([h] + t)[i] == t[i - 1];
      }
    }
  }

  /** Two ordered sequences with the same elements are the same sequence: the
      sorted set depends only on which elements were added, not on their order. */
  lemma {:induction false} OrderedUnique<T(!new)>(a: seq<T>, b: seq<T>, lt: (T, T) -> bool)
    requires StrictTotalOrder(lt)
    requires Ordered(a, lt) && Ordered(b, lt)
    requires forall y :: y in a <==> y in b
    ensures a == b
    decreases |a|
  {
    if |a| == 0 && |b| == 0 {
    } else {
      assert |a| > 0 ==> a[0] in a;
      assert |b| > 0 ==> b[0] in b;
      HeadIsLeast(b, lt, a[0]);
      HeadIsLeast(a, lt, b[0]);
      forall y
        ensures y in a[1..] <==> y in b[1..]
      {
        assert a == [a[0]] + a[1..];
        assert b == [b[0]] + b[1..];
        if y in a[1..] {
          var k :| 0 <= k < |a[1..]| && a[1..][k] == y;
          assert lt(a[0], a[k + 1]);
          assert y in b && y != b[0];
        }
        if y in b[1..] {
          var k :| 0 <= k < |b[1..]| && b[1..][k] == y;
          assert lt(b[0], b[k + 1]);
          assert y in a && y != a[0];
        }
      }
      OrderedUnique(a[1..], b[1..], lt);
      assert a == [a[0]] + a[1..];
      assert b == [b[0]] + b[1..];
    }
  }

  /** The first element of an ordered sequence is below every other element. */
  lemma HeadIsLeast<T(!new)>(s: seq<T>, lt: (T, T) -> bool, y: T)
    requires Ordered(s, lt)
    requires y in s
    ensures y == s[0] || lt(s[0], y)
  {
  }
}

=== FILE: targets.dfy ===
/** Build targets and flavors, shared by the parser session and the JS library rules. */
module Targets {
  import opened Paths

  /** A flavor is a named tag selecting a variant of one declared target. */
  datatype Flavor = Flavor(name: string)

  /** The part of a target that names its declaration: owning cell root, build-file
      directory relative to that root, and short name. */
  datatype UnflavoredBuildTarget = UnflavoredBuildTarget(cellPath: Path, basePath: Path, shortName: string)

  datatype BuildTarget = BuildTarget(unflavored: UnflavoredBuildTarget, flavors: set<Flavor>) {

    /** `getCellPath()`: the root of the cell the target is declared in. */
    function CellPath(): Path {
      unflavored.cellPath
    }

    /** `withFlavors(fs)`: the same declaration with exactly the flavors `fs`. */
    function WithFlavors(fs: set<Flavor>): (t: BuildTarget)
      ensures t.unflavored == unflavored && t.flavors == fs
    {
      BuildTarget(unflavored, fs)
    }

    /** `withAppendedFlavors(fs)`: the same declaration with `fs` added to its flavors. */
    function WithAppendedFlavors(fs: set<Flavor>): (t: BuildTarget)
      ensures t.unflavored == unflavored
      ensures forall f :: f in t.flavors <==> f in flavors || f in fs
    {
      BuildTarget(unflavored, flavors + fs)
    }
  }
}

=== FILE: wrappers.dfy ===
/** Optional values and exception-carrying results, standing in for Java's
    `Optional` and for the exceptions the modelled code throws. */
module Wrappers {

  datatype Option<+T> = None | Some(value: T)

  /** `Failure` is the exception a Java method would throw instead of returning. */
  datatype Result<+R, +E> = Success(value: R) | Failure(error: E) {

    predicate IsFailure() {
      Failure?
    }

    function PropagateFailure<U>(): Result<U, E>
      requires Failure?
    {
      Failure(error)
    }

    function Extract(): R
      requires Success?
    {
      value
    }
  }
}
